=== FILE: README.md ===
# Bounded paginated access to spreadsheets, CSV and JSON arrays

This project models the access layer of the Excel Analyser MCP server
(`excel-analyser-mcp.js`). The server offers five tools to a language-model
client. Each one answers in a single bounded message, however large the
dataset is:

- `read_excel` returns every sheet of an `.xlsx` workbook, or the single
  sheet `"CSV"` of a `.csv` file. Each sheet comes back whole if it has at
  most 20000 rows. Otherwise the tool returns the first 100 rows, the row
  count and the first row's keys.
- `get_chunk` returns `slice(start, start + limit)` of the first sheet's
  rows, with the total row count. It refuses a `limit` above 1000 before it
  looks at the file.
- `read_json` makes one pass over a streamed JSON array. It counts the
  elements, takes the first element's keys and keeps the first 100 elements,
  projected. It always answers with this preview envelope.
- `get_json_chunk` makes one pass that keeps the projected elements whose
  index lies in `[start, start + limit)` and counts all elements. It refuses
  a `limit` above 1000 first.
- `query_json` makes one pass that keeps the first 1000 elements whose field
  satisfies a string predicate (`contains`, `equals`, `startsWith`,
  `endsWith` on `String(value)`; a missing or null field never matches). It
  also counts every element and flags the cap note when it has kept 1000.

Files and modules:

- `strings.dfy` (`Strings`) holds the JavaScript string operations used:
  `endsWith`, `startsWith`, `includes` and `join`.
- `objects.dfy` (`Objects`) holds JavaScript values and objects. An object
  is an ordered list of its own properties. `Get` is property lookup and
  `Put` is property assignment.
- `projection.dfy` (`Projection`) holds the tabular and the JSON record
  projections, each as a specification function plus the loop that fills
  `filtered`.
- `matcher.dfy` (`Matcher`) holds the `String()` coercion and the query
  predicate.
- `paging.dfy` (`Paging`) holds the constants (1000, 100, 20000, 1000), the
  `slice` window and the head sample.
- `replies.dfy` (`Replies`) holds the failure kinds and the chunk envelope.
- `tabular.dfy` (`Tabular`) holds `read_excel` and `get_chunk`.
- `scan.dfy` (`Scan`) holds the three stream passes, each a loop proved
  against a functional specification.
- `json_tools.dfy` (`JsonTools`) holds `read_json`, `query_json` and
  `get_json_chunk`.

The file system, the URL fetch and the three parsers are not part of the
model. Each handler receives what they would produce as a parameter:

- `TabularFile` says whether the file was found, what the workbook parser
  produced and what the CSV parser produced.
- `JsonFile` says whether the file was found, which array elements the
  stream delivered and what error ended the stream, if any.

A parse or stream error fails the whole request and drops any partial
result. The copies `readExcelFile` (lines 560-652) and `readJsonFile` (lines
654-744) differ from `read_excel` and `read_json` only in message text and in
handling local paths only. Each pair is modelled once, by `Tabular.ReadExcel`
and `JsonTools.ReadJson`.

Three behaviours worth noting:

- `read_json` has no "return everything up to 1000 entries" branch. It
  always returns the preview envelope (lines 346-353).
- The query cap note is added when `results.length >= 1000`, not only when
  more than 1000 matches exist (lines 441-443). `QueryJson` states this
  exactly: `capped` holds iff the true match count is at least 1000.
- Tabular projection assigns `row[col]` for every requested column. A
  column the row lacks therefore appears with the value `undefined` (lines
  91-93). Only the JSON projection guarantees that it never adds a key the
  record does not own.

## Model

| member | source | states |
|---|---|---|
| `Objects.Get` | excel-analyser-mcp.js:406 | a property lookup finds a value exactly when the object owns the name |
| `Objects.PutSpec` | excel-analyser-mcp.js:92 | property assignment: an existing name keeps its position and takes the new value; a new name is appended; every other name's value is unchanged; no name appears twice afterwards |
| `Objects.AssignedUnique` | excel-analyser-mcp.js:99-106 | assigning properties whose names are pairwise different, one after another, to an empty object yields exactly those properties in assignment order |
| `Strings.StartsWith` | excel-analyser-mcp.js:418 | `startsWith` holds exactly when the text is the pattern followed by something |
| `Strings.EndsWith` | excel-analyser-mcp.js:421 | `endsWith` holds exactly when the text is something followed by the pattern |
| `Strings.Includes` | excel-analyser-mcp.js:412 | `includes` holds exactly when the pattern occurs at some position of the text |
| `Projection.SelectedSpec` | excel-analyser-mcp.js:89-95 | the projected row's keys are exactly the requested columns, deduplicated, in first-request order; each holds the row's value under that name (`undefined` when the row lacks it) |
| `Projection.SelectColumns` | excel-analyser-mcp.js:90-94 | the column-filling loop produces the tabular projection |
| `Projection.PickedSpec` | excel-analyser-mcp.js:324-329 | the JSON projection has a key iff the element owns it and it was requested; values are the element's; keys follow first-request order |
| `Projection.OwnedAppend` | excel-analyser-mcp.js:325-329 | the requested fields an element owns are found in request order: filtering a concatenation filters each part in turn |
| `Projection.PickFields` | excel-analyser-mcp.js:323-330 | the `hasOwnProperty` copy loop produces the JSON projection |
| `Projection.ProjectItemSpec` | excel-analyser-mcp.js:322-333 | an empty field list leaves the element unchanged; otherwise no key the element does not own is introduced and values are copied |
| `Projection.PickedAllKeys` | excel-analyser-mcp.js:514-521 | requesting exactly an element's own keys, in its order, returns the element unchanged |
| `Projection.SelectedAllKeys` | excel-analyser-mcp.js:88-96 | requesting exactly a row's own columns, in its order, returns the row unchanged |
| `Matcher.TextSingleton` | excel-analyser-mcp.js:409 | `String([x])` is `String(x)`, and the empty string for `null` or `undefined` |
| `Matcher.TextArrayAppend` | excel-analyser-mcp.js:409 | an array's `String()` is its elements' texts separated by commas: one more element adds a comma and its text (nothing for `null`/`undefined`) |
| `Matcher.TextExample` | excel-analyser-mcp.js:409 | `String([1, null, "a", [true, undefined]])` is `"1,,a,true,"` |
| `Matcher.StringFieldMatch` | excel-analyser-mcp.js:406-419 | a string-valued field is compared unchanged: `equals` iff it is the query text, `startsWith` iff the query text is its prefix |
| `Matcher.IsMatch` | excel-analyser-mcp.js:405-423 | a missing, `undefined` or `null` field never matches; otherwise the operator holds on `String(value)` as a substring, equality, prefix or suffix by position |
| `Matcher.EqualsImpliesOtherOperators` | excel-analyser-mcp.js:414-422 | a field matching `equals` also matches `contains`, `startsWith` and `endsWith` |
| `Matcher.AffixImpliesContains` | excel-analyser-mcp.js:411-422 | a field matching `startsWith` or `endsWith` also matches `contains` |
| `Paging.Window` | excel-analyser-mcp.js:230 | `slice(start, start + limit)` holds the elements with index in `[start, start + limit)`, in order; it is empty when `start` is past the end |
| `Paging.Head` | excel-analyser-mcp.js:100 | `slice(0, n)` is the prefix of length `min(n, length)` |
| `Paging.PagesCover` | excel-analyser-mcp.js:103 | paging with `start` = 0, `limit`, 2·`limit`, … neither skips nor repeats a record, and reaches the whole dataset once `count·limit` covers it |
| `Tabular.SupportedExamples` | excel-analyser-mcp.js:49 | the accepted paths end in `.xlsx` or `.csv`, case-sensitively: `data.xlsx` and `data.csv` pass; `data.json`, `data.xls`, `DATA.CSV` and `csv` do not |
| `Tabular.Sheets` | excel-analyser-mcp.js:81-136 | an `.xlsx` path reads the workbook's sheets; otherwise the delimited-text rows become one sheet named `"CSV"`, which is then the first sheet; a parse error is passed through with its message |
| `Tabular.FirstSheet` | excel-analyser-mcp.js:204-210 | the rows of the workbook's first sheet; no rows for a workbook without sheets |
| `Tabular.Threshold` | excel-analyser-mcp.js:98-107 | a sheet is returned whole iff it has at most 20000 rows; otherwise the result is the first 100 rows, the row count and the first row's keys |
| `Tabular.SelectRows` | excel-analyser-mcp.js:88-96 | the `data.map` loop produces the projected rows |
| `Tabular.SelectAllAt` | excel-analyser-mcp.js:89-95 | row `i` of the projected rows is row `i` of the sheet, projected |
| `Tabular.SummarizeSheet` | excel-analyser-mcp.js:86-107 | one sheet's entry is the size decision applied to its projected rows |
| `Tabular.ReadSheets` | excel-analyser-mcp.js:84-108 | the result object has exactly one entry per sheet, in workbook order, under the sheet's name, holding the size decision applied to its projected rows |
| `Tabular.ReadExcel` | excel-analyser-mcp.js:46-152 | an unsupported extension or a missing file fails; a parse error fails with no partial result; otherwise each sheet (or `"CSV"`) gets its size-decided projected rows |
| `Tabular.GetChunk` | excel-analyser-mcp.js:163-250 | `limit > 1000` fails with the limit error whatever the path and file, and `limit <= 1000` never does; a successful reply is the window of the projected first sheet, with `totalRows` equal to its row count |
| `Tabular.ProjectedPreviewColumns` | excel-analyser-mcp.js:98-102 | an oversized sheet projected onto columns reports exactly those columns, in first-request order |
| `Tabular.UniformSheetUnchanged` | excel-analyser-mcp.js:86-96 | projecting a sheet onto the columns every row has, in the rows' order, changes nothing |
| `Scan.Matching` | excel-analyser-mcp.js:403-428 | every element of the result is an input element satisfying the query, and every input element satisfying it is in the result |
| `Scan.MatchingSingle` | excel-analyser-mcp.js:406-426 | one element is kept exactly when it satisfies the query |
| `Scan.MatchingAppend` | excel-analyser-mcp.js:403-428 | the matches of a concatenation are the matches of the first part followed by those of the second: scan order, each occurrence kept |
| `Scan.ProjectValue` | excel-analyser-mcp.js:322-333 | a kept element is stored projected |
| `Scan.ProjectEachAt` | excel-analyser-mcp.js:513-524 | position `i` of the projected elements holds element `i`, projected |
| `Paging.WindowGrows` | excel-analyser-mcp.js:512-524 | an element whose index lies in `[start, start + limit)` is appended to the window |
| `Paging.WindowStays` | excel-analyser-mcp.js:512 | an element whose index lies outside `[start, start + limit)` leaves the window unchanged |
| `Scan.PreviewPass` | excel-analyser-mcp.js:315-334 | the pass counts every element; the preview is the projected first `min(total, 100)` elements; the field names are the first element's keys, or none for an empty array |
| `Scan.WindowPass` | excel-analyser-mcp.js:509-525 | the pass counts every element; the chunk is exactly the projected elements with index in `[start, start + limit)`, in order |
| `Scan.QueryPass` | excel-analyser-mcp.js:403-428 | the pass counts every element; the results are the first `min(m, 1000)` matches in scan order, where `m` is the true match count |
| `Scan.UniformElementsUnchanged` | excel-analyser-mcp.js:323-330 | projecting elements onto exactly their own keys changes none of them |
| `Scan.StartsWithExample` | excel-analyser-mcp.js:417-418 | `[{"s":"abc"},{"s":"xbc"},{"s":null}]` with `startsWith "a"` on `s` gives `[{"s":"abc"}]` |
| `JsonTools.ReadJson` | excel-analyser-mcp.js:259-369 | a wrong extension or missing file fails, and so does a stream error (no partial preview); otherwise the reply has the projected first 100 elements, the element count and the first element's keys |
| `JsonTools.QueryJson` | excel-analyser-mcp.js:382-464 | the reply holds the first matches (at most 1000), `matchCount` equal to their number, every element counted as scanned, and the cap note iff at least 1000 elements match |
| `JsonTools.GetJsonChunk` | excel-analyser-mcp.js:475-556 | `limit > 1000` fails first with the limit error, and `limit <= 1000` never does; a successful reply is the projected window and the full element count |

## Left out

- MCP server and tool registration, and the zod schemas with their
  defaults (`start = 0`, `limit = 1000`). `start` and `limit` are natural
  numbers here. A `limit` of 0, which the schema refuses, yields an empty
  chunk.
- Path normalisation, file access, URL detection and fetching. These become
  the `found` flag. A failed fetch and a missing file are one failure kind
  here; the source words their messages differently.
- The workbook, CSV and JSON stream parsers. Their output is a parameter. A
  workbook without sheets gives `get_chunk` no rows, as `sheet_to_json`
  does for a missing sheet.
- Array elements that are not objects (numbers, strings, `null` at the top
  level of the array). Every element is modelled as an object.
- Assigning a property named `__proto__` (a sheet name at lines 99 and 106,
  a column at line 92, a field at lines 327 and 518) changes the object's
  prototype instead of adding a property, so the source's reply omits it.
  `Objects.Put` adds it as an ordinary property, so `Tabular.ReadSheets`,
  `Projection.Selected` and `Projection.Picked` keep it.
- Workbook rows carry a hidden `__rowNum__` property (the row's index in
  the worksheet) that `row[col]` reads (lines 92, 224). A `Record` holds only
  enumerable properties, so `Projection.Selected` gives `undefined` for that
  column.
- Records are not constrained to distinct property names, although no
  parser produces a repeated name. Lemmas that depend on distinct names
  (`Projection.PickedAllKeys`, `Tabular.UniformSheetUnchanged`,
  `Scan.UniformElementsUnchanged`) require it explicitly.
- Property lookups that reach `Object.prototype`, such as a column or field
  named `constructor`. Lookups see own properties only.
- `item.hasOwnProperty(field)` (lines 326, 517, 701) throws a `TypeError`
  when the element owns a property named `hasOwnProperty` whose value is not
  a function. The throw happens inside the stream's `data` listener, outside
  the handler's `try` (lines 261, 385, 477), so no error reply is produced
  and the exception is uncaught. `Projection.Picked` always reads own
  properties and does not model this case.
- `String(fieldValue)` (line 409) throws when the value is an object owning
  a `toString` or `valueOf` property that is not a function (or when an
  array holds such an object). The throw happens inside the stream's `data`
  listener, outside the handler's `try` (line 385), so no error reply is
  produced and the exception is uncaught. `Matcher.Text` prints every object
  as `"[object Object]"` and does not model this case.
- JavaScript strings are sequences of UTF-16 code units and may hold a lone
  surrogate (`"\ud800"` in JSON text). Strings here are sequences of Dafny
  `char`, which cannot hold a lone surrogate, so such names and values are
  not modelled.
- `Object.keys` ordering integer-like names first. Keys keep insertion order
  here.
- `String(number)` formatting. A number carries its canonical `String()`
  text.
- JSON serialisation of the reply (which drops `undefined`-valued keys) and
  all human-readable message text. Only which branch is taken is modelled:
  the limit error, the cap note, the preview.
- Floating-point behaviour of `start + limit` beyond 2^53. Integers are
  unbounded here.
- The asynchronous stream and event mechanics, and the bounded-memory
  property of the streaming passes. Each pass is a synchronous loop over the
  delivered elements.
- The transports, HTTP server, health endpoints and session identifiers in
  `main`.

=== FILE: json_tools.dfy ===
/**
 The JSON tools, `read_json`, `query_json` and `get_json_chunk`, over the
 elements a streamed JSON array delivers. A stream error (an empty or
 malformed document, or a top-level value that is not an array) fails the
 whole request: whatever a pass had gathered is dropped.
 */
module JsonTools {
  import opened Objects
  import opened Paging
  import opened Replies
  import opened Matcher
  import opened Scan
  import Strings

  /** What the file system and the streaming parser make of the requested
      path: whether the file could be opened, the array elements delivered
      in index order, and the error that ended the stream early, if any. */
  datatype JsonFile = JsonFile(found: bool, elements: seq<Record>, error: Option<string>)

  /** The `"JSON"` entry of `read_json`'s reply. */
  datatype JsonPreview = JsonPreview(preview: seq<Record>, totalEntries: nat, fields: seq<string>)

  /** `query_json`'s reply; `capped` says whether the cap note is added. */
  datatype QueryResult = QueryResult(matches: seq<Record>, matchCount: nat, totalEntriesScanned: nat, capped: bool)

  predicate IsJsonPath(filePath: string) {
    Strings.EndsWith(filePath, ".json")
  }

  /** The request reaches a complete pass over the file. */
  predicate Readable(filePath: string, file: JsonFile) {
    IsJsonPath(filePath) && file.found && file.error.None?
  }

  /** The `read_json` tool (and its copy `readJsonFile`): always the preview
      envelope, whatever the number of elements. */
  method ReadJson(filePath: string, fields: seq<string>, file: JsonFile) returns (reply: Reply<JsonPreview>)
    ensures !IsJsonPath(filePath) ==> reply == Fail(UnsupportedExtension)
    ensures IsJsonPath(filePath) && !file.found ==> reply == Fail(SourceNotFound)
    ensures reply.Ok? <==> Readable(filePath, file)
    ensures reply.Ok? ==>
      reply.value.totalEntries == |file.elements| &&
      reply.value.preview == ProjectEach(Head(file.elements, PREVIEW_LIMIT), fields) &&
      reply.value.fields == if |file.elements| == 0 then [] else Keys(file.elements[0])
  {
    if !IsJsonPath(filePath) {
      return Fail(UnsupportedExtension);
    }
    if !file.found {
      return Fail(SourceNotFound);
    }
    var preview, totalEntries, fieldNames := PreviewPass(file.elements, fields);
    match file.error
    case Some(message) =>
      reply := Fail(ReadFailure(message));
    case None =>
      reply := Ok(JsonPreview(preview, totalEntries, fieldNames));
  }

  /** The `query_json` tool: the first matches in scan order, at most
      `MAX_RESULTS` of them, with the number of elements scanned. */
  method QueryJson(filePath: string, query: Query, file: JsonFile) returns (reply: Reply<QueryResult>)
    ensures !IsJsonPath(filePath) ==> reply == Fail(UnsupportedExtension)
    ensures IsJsonPath(filePath) && !file.found ==> reply == Fail(SourceNotFound)
    ensures reply.Ok? <==> Readable(filePath, file)
    ensures reply.Ok? ==>
      var all := Matching(file.elements, query);
      reply.value.matches == Head(all, MAX_RESULTS) &&
      reply.value.matchCount == |reply.value.matches| <= MAX_RESULTS &&
      reply.value.totalEntriesScanned == |file.elements| &&
      (reply.value.capped <==> |all| >= MAX_RESULTS)
  {
    if !IsJsonPath(filePath) {
      return Fail(UnsupportedExtension);
    }
    if !file.found {
      return Fail(SourceNotFound);
    }
    var results, totalEntries := QueryPass(file.elements, query);
    match file.error
    case Some(message) =>
      reply := Fail(ReadFailure(message));
    case None =>
      var capped := |results| >= MAX_RESULTS;
      reply := Ok(QueryResult(results, |results|, totalEntries, capped));
  }

  /** The `get_json_chunk` tool: the limit is checked before anything else,
      then one pass keeps the window. */
  method GetJsonChunk(filePath: string, fields: seq<string>, start: nat, limit: nat, file: JsonFile)
    returns (reply: Reply<Chunk>)
    ensures limit > MAX_LIMIT ==> reply == Fail(LimitExceeded)
    ensures limit <= MAX_LIMIT ==> reply != Fail(LimitExceeded)
    ensures limit <= MAX_LIMIT && !IsJsonPath(filePath) ==> reply == Fail(UnsupportedExtension)
    ensures reply.Ok? <==> limit <= MAX_LIMIT && Readable(filePath, file)
    ensures reply.Ok? ==>
      reply.value == Chunk(ProjectEach(Window(file.elements, start, limit), fields), start, limit, |file.elements|)
  {
    if limit > MAX_LIMIT {
      return Fail(LimitExceeded);
    }
    if !IsJsonPath(filePath) {
      return Fail(UnsupportedExtension);
    }
    if !file.found {
      return Fail(SourceNotFound);
    }
    var chunk, totalEntries := WindowPass(file.elements, fields, start, limit);
    match file.error
    case Some(message) =>
      reply := Fail(ReadFailure(message));
    case None =>
      reply := Ok(Chunk(chunk, start, limit, totalEntries));
  }
}

=== FILE: matcher.dfy ===
/**
 The single-field string predicate of `query_json`: the field's value is
 coerced with `String(...)` and compared with the query's text by one of four
 operators; a field that is missing, `undefined` or `null` never matches.
 */
module Matcher {
  import opened Objects
  import Strings

  datatype Operator = Contains | Equals | StartsWith | EndsWith

  datatype Query = Query(field: string, op: Operator, value: string)

  /** `String(v)`. Arrays join their elements' strings with commas, writing
      nothing for `null` and `undefined` elements; every other object reads
      "[object Object]". */
  function Text(v: Value): string
    decreases v, 0
  {
    match v
    case Undefined => "undefined"
    case Null => "null"
    case Bool(b) => if b then "true" else "false"
    case Num(text) => text
    case Str(s) => s
    case Obj(_) => "[object Object]"
    case Arr(items) =>
      Strings.Join(seq(|items|, i requires 0 <= i < |items| => Part(items[i])))
  }

  /** The text an array element contributes to the array's text. */
  function Part(v: Value): string
    decreases v, 1
  {
    if v.Null? || v.Undefined? then "" else Text(v)
  }

  /** `String([x])` is `String(x)`, and `""` for `null` or `undefined`. */
  lemma TextSingleton(v: Value)
    ensures Text(Arr([v])) == Part(v)
  {
    assert Text(Arr([v])) == Strings.Join([Part(v)]);
  }

  /** An array's text is its elements' texts separated by commas: one more
      element adds a comma and its text. */
  lemma TextArrayAppend(items: seq<Value>, v: Value)
    requires |items| > 0
    ensures Text(Arr(items + [v])) == Text(Arr(items)) + "," + Part(v)
  {
    var all := items + [v];
    var parts := seq(|all|, i requires 0 <= i < |all| => Part(all[i]));
    assert parts[..|parts| - 1] == seq(|items|, i requires 0 <= i < |items| => Part(items[i]));
  }

  /** `String([1, null, "a", [true, undefined]])` is `"1,,a,true,"`: holes
      print as nothing, and nested arrays are flattened into the list. */
  lemma TextExample()
    ensures Text(Arr([Num("1"), Null, Str("a"), Arr([Bool(true), Undefined])])) == "1,,a,true,"
  {
    TextSingleton(Bool(true));
    TextArrayAppend([Bool(true)], Undefined);
    TextSingleton(Num("1"));
    TextArrayAppend([Num("1")], Null);
    TextArrayAppend([Num("1"), Null], Str("a"));
    assert [Num("1"), Null] + [Str("a")] == [Num("1"), Null, Str("a")];
    TextArrayAppend([Num("1"), Null, Str("a")], Arr([Bool(true), Undefined]));
    assert [Num("1"), Null, Str("a")] + [Arr([Bool(true), Undefined])]
        == [Num("1"), Null, Str("a"), Arr([Bool(true), Undefined])];
    assert [Num("1")] + [Null] == [Num("1"), Null];
    assert [Bool(true)] + [Undefined] == [Bool(true), Undefined];
  }

  /** The JavaScript string method each operator calls. */
  function Applies(op: Operator, text: string, pattern: string): bool {
    match op
    case Contains => Strings.Includes(text, pattern)
    case Equals => text == pattern
    case StartsWith => Strings.StartsWith(text, pattern)
    case EndsWith => Strings.EndsWith(text, pattern)
  }

  /** What each operator means, by positions in the text. */
  ghost predicate Holds(op: Operator, text: string, pattern: string) {
    match op
    case Contains => exists i :: Strings.OccursAt(text, pattern, i)
    case Equals => text == pattern
    case StartsWith => |pattern| <= |text| && text[..|pattern|] == pattern
    case EndsWith => |pattern| <= |text| && text[|text| - |pattern|..] == pattern
  }

  /** Whether one JSON element satisfies the query. */
  function IsMatch(rec: Record, q: Query): (b: bool)
    ensures b <==> match Get(rec, q.field)
                   case None => false
                   case Some(v) => v != Null && v != Undefined && Holds(q.op, Text(v), q.value)
  {
    var fieldValue := Lookup(rec, q.field);
    if fieldValue != Undefined && fieldValue != Null then
      var text := Text(fieldValue);
      Applies(q.op, text, q.value)
    else
      false
  }

  /** A string field is compared as it is: `equals` holds exactly when the
      field is the query text, and `startsWith` exactly when the query text
      is a prefix of it. */
  lemma StringFieldMatch(rec: Record, field: string, s: string, pattern: string)
    requires Get(rec, field) == Some(Str(s))
    ensures IsMatch(rec, Query(field, Equals, pattern)) <==> s == pattern
    ensures IsMatch(rec, Query(field, StartsWith, pattern)) <==> exists rest :: s == pattern + rest
  {
    assert Lookup(rec, field) == Str(s);
    assert Strings.StartsWith(s, pattern) <==> exists rest :: s == pattern + rest;
  }

  /** A value equal to the query text also contains it, starts with it and
      ends with it. */
  lemma EqualsImpliesOtherOperators(rec: Record, field: string, pattern: string)
    requires IsMatch(rec, Query(field, Equals, pattern))
    ensures IsMatch(rec, Query(field, Contains, pattern))
    ensures IsMatch(rec, Query(field, StartsWith, pattern))
    ensures IsMatch(rec, Query(field, EndsWith, pattern))
  {
    var text := Text(Lookup(rec, field));
    assert Strings.OccursAt(text, pattern, 0);
  }

  /** A value that starts or ends with the query text contains it. */
  lemma AffixImpliesContains(rec: Record, field: string, pattern: string)
    requires IsMatch(rec, Query(field, StartsWith, pattern)) || IsMatch(rec, Query(field, EndsWith, pattern))
    ensures IsMatch(rec, Query(field, Contains, pattern))
  {
    var text := Text(Lookup(rec, field));
    if IsMatch(rec, Query(field, StartsWith, pattern)) {
      assert Strings.OccursAt(text, pattern, 0);
    } else {
      assert Strings.OccursAt(text, pattern, |text| - |pattern|);
    }
  }
}

=== FILE: objects.dfy ===
/**
 JavaScript values and plain objects, as the access layer receives them from
 the spreadsheet, delimited-text and JSON-array parsers.

 An object is the list of its own properties in insertion order (the order
 `Object.keys` reports); property lookup `o[k]` is `Get`, property assignment
 `o[k] = v` is `Put` (for every name but `__proto__`, whose assignment changes
 the prototype instead).
 */
module Objects {

  datatype Option<+T> = None | Some(value: T)

  /** A JavaScript value. A number is held as its canonical `String()`
      rendering, the only thing the access layer ever does with it. */
  datatype Value =
    | Undefined
    | Null
    | Bool(b: bool)
    | Num(text: string)
    | Str(s: string)
    | Arr(items: seq<Value>)
    | Obj(members: seq<(string, Value)>)

  /** An object's own properties, in insertion order. */
  type Entries<V> = seq<(string, V)>

  /** One row of a sheet or one element of a JSON array. */
  type Record = Entries<Value>

  /** `Object.keys(o)` */
  function Keys<V>(o: Entries<V>): seq<string> {
    seq(|o|, i requires 0 <= i < |o| => o[i].0)
  }

  predicate Distinct(ks: seq<string>) {
    forall i, j :: 0 <= i < j < |ks| ==> ks[i] != ks[j]
  }

  /** What every JavaScript object satisfies: no property name twice. */
  predicate UniqueKeys<V>(o: Entries<V>) {
    Distinct(Keys(o))
  }

  /** `o.hasOwnProperty(k)` */
  predicate Has<V>(o: Entries<V>, k: string) {
    k in Keys(o)
  }

  /** The position of the first own property named `k`. */
  function IndexOf<V>(o: Entries<V>, k: string): (i: nat)
    requires Has(o, k)
    ensures i < |o| && o[i].0 == k
    ensures forall j :: 0 <= j < i ==> o[j].0 != k
  {
    assert Keys(o) == [o[0].0] + Keys(o[1..]);
    if o[0].0 == k then 0 else 1 + IndexOf(o[1..], k)
  }

  /** The first position holding `k` is the one `IndexOf` finds. */
  lemma IndexOfIs<V>(o: Entries<V>, k: string, i: nat)
    requires i < |o| && o[i].0 == k
    requires forall j :: 0 <= j < i ==> o[j].0 != k
    ensures Has(o, k) && IndexOf(o, k) == i
  {
    assert Keys(o)[i] == k;
  }

  /** The value of own property `k`, if `o` has one. */
  function Get<V>(o: Entries<V>, k: string): (r: Option<V>)
    ensures r.Some? <==> Has(o, k)

  {
    if Has(o, k) then Some(o[IndexOf(o, k)].1) else None
  }

  /** `o[k]` on a record: the own property's value, or `undefined`. */
  function Lookup(o: Record, k: string): Value {
    match Get(o, k)
    case Some(v) => v
    case None => Undefined
  }

  /** `o[k] = v`: an existing property keeps its place and takes the new
      value; a new property goes after all others. */
  function Put<V>(o: Entries<V>, k: string, v: V): Entries<V> {
    if Has(o, k) then o[IndexOf(o, k) := (k, v)] else o + [(k, v)]
  }

  /** After `o[k] = v`, `k` holds `v`, every other name holds what it held,
      the keys are unchanged or extended by `k`, and no name appears twice
      if none did before. */
  lemma PutSpec<V>(o: Entries<V>, k: string, v: V)
    ensures Keys(Put(o, k, v)) == if Has(o, k) then Keys(o) else Keys(o) + [k]
    ensures !Has(o, k) ==> Put(o, k, v) == o + [(k, v)]
    ensures Get(Put(o, k, v), k) == Some(v)
    ensures forall k' :: k' != k ==> Get(Put(o, k, v), k') == Get(o, k')
    ensures UniqueKeys(o) ==> UniqueKeys(Put(o, k, v))
  {
    var r := Put(o, k, v);
    if Has(o, k) {
      var i := IndexOf(o, k);
      assert Keys(r) == Keys(o);
      IndexOfIs(r, k, i);
      forall k' | k' != k && Has(o, k') ensures Has(r, k') && IndexOf(r, k') == IndexOf(o, k') {
        IndexOfIs(r, k', IndexOf(o, k'));
      }
    } else {
      assert Keys(r) == Keys(o) + [k];
      forall j | 0 <= j < |o| ensures o[j].0 != k {
        assert Keys(o)[j] == o[j].0;
      }
      IndexOfIs(r, k, |o|);
      forall k' | k' != k && Has(o, k') ensures Has(r, k') && IndexOf(r, k') == IndexOf(o, k') {
        IndexOfIs(r, k', IndexOf(o, k'));
      }
    }
  }

  /** Assigning a name the object does not have appends the property. */
  lemma PutFresh<V>(o: Entries<V>, k: string, v: V)
    requires forall j :: 0 <= j < |o| ==> o[j].0 != k
    ensures Put(o, k, v) == o + [(k, v)]
  {
    if Has(o, k) {
      var j := IndexOf(o, k);
    }
  }

  /** A prefix of an object without repeated names has none either. */
  lemma UniqueKeysPrefix<V>(o: Entries<V>, n: nat)
    requires UniqueKeys(o) && n <= |o|
    ensures UniqueKeys(o[..n])
  {
    assert Keys(o[..n]) == Keys(o)[..n];
  }

  /** The object obtained by assigning each of `props`, in order, to an
      empty object. */
  function Assigned<V>(props: Entries<V>): Entries<V> {
    if props == [] then []
    else
      var last := props[|props| - 1];
      Put(Assigned(props[..|props| - 1]), last.0, last.1)
  }

  /** Assigning one more property extends the assignment of a prefix. */
  lemma AssignedStep<V>(props: Entries<V>, i: nat)
    requires i < |props|
    ensures Assigned(props[..i + 1]) == Put(Assigned(props[..i]), props[i].0, props[i].1)
  {
    assert props[..i + 1][..i] == props[..i];
  }

  /** Objects whose properties have the same names, position by position,
      have the same keys. */
  lemma SameNames<V, W>(a: Entries<V>, b: Entries<W>)
    requires |a| == |b| && forall i :: 0 <= i < |a| ==> a[i].0 == b[i].0
    ensures Keys(a) == Keys(b)
  {
  }

  /** Assigning properties with pairwise different names one after another
      yields exactly those properties, in assignment order. */
  lemma {:induction false} AssignedUnique<V>(props: Entries<V>)
    requires UniqueKeys(props)
    ensures Assigned(props) == props
  {
    if props != [] {
      var n := |props| - 1;
      var init := props[..n];
      UniqueKeysPrefix(props, n);
      AssignedUnique(init);
      LastIsFresh(props);
      PutFresh(init, props[n].0, props[n].1);
      calc {
        Assigned(props);
        Put(Assigned(init), props[n].0, props[n].1);
        Put(init, props[n].0, props[n].1);
        init + [props[n]];
        props;
      }
    }
  }

  /** In an object without repeated names, the last property's name is not
      among the earlier ones. */
  lemma LastIsFresh<V>(props: Entries<V>)
    requires UniqueKeys(props) && |props| > 0
    ensures forall j :: 0 <= j < |props| - 1 ==> props[j].0 != props[|props| - 1].0
  {
    var n := |props| - 1;
    forall j | 0 <= j < n ensures props[j].0 != props[n].0 {
      assert Keys(props)[j] == props[j].0 && Keys(props)[n] == props[n].0;
    }
  }

  /** In an object without repeated names, the value stored at position `i`
      is the value of that property. */
  lemma GetAt<V>(o: Entries<V>, i: nat)
    requires UniqueKeys(o) && i < |o|
    ensures Get(o, o[i].0) == Some(o[i].1)
  {
    assert Keys(o)[i] == o[i].0;
    var j := IndexOf(o, o[i].0);
    assert Keys(o)[j] == o[j].0;
  }

  /** The names of `ks` in order of first occurrence, without repeats. */
  function Dedup(ks: seq<string>): (r: seq<string>)
    ensures Distinct(r)
    ensures forall k :: k in r <==> k in ks
  {
    if ks == [] then []
    else
      var prev := Dedup(ks[..|ks| - 1]);
      var last := ks[|ks| - 1];
      assert ks == ks[..|ks| - 1] + [last];
      if last in prev then prev else prev + [last]
  }

  /** One more name is kept exactly when it is new. */
  lemma DedupSnoc(ks: seq<string>, k: string)
    ensures Dedup(ks + [k]) == if k in Dedup(ks) then Dedup(ks) else Dedup(ks) + [k]
  {
    assert (ks + [k])[..|ks|] == ks;
  }
}

=== FILE: paging.dfy ===
/**
 The numeric ceilings of the access layer and the index-range slice that the
 chunk tools return.
 */
module Paging {

  /** The largest `limit` `get_chunk` and `get_json_chunk` accept. */
  const MAX_LIMIT := 1000
  /** How many records a preview holds. */
  const PREVIEW_LIMIT := 100
  /** A sheet with more rows than this is answered with a preview. */
  const CHUNK_SIZE := 20000
  /** How many matches `query_json` keeps. */
  const MAX_RESULTS := 1000

  function Min(a: int, b: int): int {
    if a <= b then a else b
  }

  /** `s.slice(start, start + limit)`: the elements whose index lies in
      `[start, start + limit)`, in order; nothing when `start` is past the
      end. */
  function Window<T>(s: seq<T>, start: nat, limit: nat): (w: seq<T>)
    ensures |w| == if start >= |s| then 0 else Min(limit, |s| - start)
    ensures forall j :: 0 <= j < |w| ==> w[j] == s[start + j]
  {
    s[Min(start, |s|)..Min(start + limit, |s|)]
  }

  /** `s.slice(0, n)` */
  function Head<T>(s: seq<T>, n: nat): (h: seq<T>)
    ensures |h| == Min(n, |s|) && h <= s
  {
    s[..Min(n, |s|)]
  }

  /** Keeping at most `n`: what arrives once `n` are kept is dropped. */
  lemma HeadStep<T>(m: seq<T>, extra: seq<T>, n: nat)
    requires |extra| <= 1
    ensures Head(m + extra, n) == if |m| < n then Head(m, n) + extra else Head(m, n)
  {
    if |m| >= n {
      assert (m + extra)[..n] == m[..n];
    }
  }

  /** Reading an element whose index lies in `[start, start + limit)` adds
      it to the window. */
  lemma WindowGrows<T>(s: seq<T>, start: nat, limit: nat, key: nat)
    requires key < |s| && start <= key < start + limit
    ensures Window(s[..key + 1], start, limit) == Window(s[..key], start, limit) + [s[key]]
  {
    assert s[..key + 1][start..key + 1] == s[..key][start..key] + [s[key]];
  }

  /** Reading an element outside `[start, start + limit)` leaves the window
      as it was. */
  lemma WindowStays<T>(s: seq<T>, start: nat, limit: nat, key: nat)
    requires key < |s| && !(start <= key < start + limit)
    ensures Window(s[..key + 1], start, limit) == Window(s[..key], start, limit)
  {
    if start + limit <= key {
      assert s[..key + 1][start..start + limit] == s[start..start + limit] == s[..key][start..start + limit];
    }
  }

  /** What a caller has after `count` calls with `start` = 0, `limit`,
      2 * `limit`, ..., as the tools' guidance tells it to page. */
  function Pages<T>(s: seq<T>, limit: nat, count: nat): seq<T> {
    if count == 0 then [] else Pages(s, limit, count - 1) + Window(s, (count - 1) * limit, limit)
  }

  /** Paging through from the start neither skips nor repeats a record:
      `count` pages are the first `count * limit` records, and the whole
      dataset once they reach its length. */
  lemma {:induction false} PagesCover<T>(s: seq<T>, limit: nat, count: nat)
    ensures Pages(s, limit, count) == s[..Min(count * limit, |s|)]
    ensures count * limit >= |s| ==> Pages(s, limit, count) == s
  {
    if count > 0 {
      PagesCover(s, limit, count - 1);
      var a := (count - 1) * limit;
      assert count * limit == a + limit;
      PrefixThenWindow(s, a, limit);
    }
    assert s[..|s|] == s;
  }

  /** The first `a` elements followed by the window at `a` are the first
      `a + limit` elements. */
  lemma PrefixThenWindow<T>(s: seq<T>, a: nat, limit: nat)
    ensures s[..Min(a, |s|)] + Window(s, a, limit) == s[..Min(a + limit, |s|)]
  {
    assert s[..Min(a + limit, |s|)] == s[..Min(a, |s|)] + s[Min(a, |s|)..Min(a + limit, |s|)];
  }
}

=== FILE: projection.dfy ===
/**
 The two record projections of the access layer.

 The tabular tools (`read_excel`, `get_chunk`) build, for each row, an object
 holding exactly the requested columns, assigning `row[col]` whether or not
 the row has that column. The JSON tools (`read_json`, `get_json_chunk`) copy
 only the requested fields the element owns (`hasOwnProperty`). Both are
 skipped when the list of names is absent or empty.
 */
module Projection {
  import opened Objects

  /** The requested names that `item` owns, in request order. */
  function Owned(item: Record, fields: seq<string>): (r: seq<string>)
    ensures forall k :: k in r <==> k in fields && Has(item, k)
  {
    if fields == [] then []
    else
      var init := fields[..|fields| - 1];
      var f := fields[|fields| - 1];
      assert fields == init + [f];
      var prev := Owned(item, init);
      if Has(item, f) then prev + [f] else prev
  }

  /** Selecting from a concatenation selects from each part and keeps
      their order: the owned names come in request order. */
  lemma {:induction false} OwnedAppend(item: Record, a: seq<string>, b: seq<string>)
    ensures Owned(item, a + b) == Owned(item, a) + Owned(item, b)
  {
    if b == [] {
      assert a + b == a;
    } else {
      var init := b[..|b| - 1];
      OwnedAppend(item, a, init);
      assert (a + b)[..|a + b| - 1] == a + init;
      assert (a + b)[|a + b| - 1] == b[|b| - 1];
    }
  }

  /** Tabular projection of one row: an object that assigns, column after
      column, what the row holds under that name (`undefined` when the row
      has no such column). */
  function Selected(row: Record, columns: seq<string>): Record {
    if columns == [] then []
    else
      var col := columns[|columns| - 1];
      Put(Selected(row, columns[..|columns| - 1]), col, Lookup(row, col))
  }

  /** The projected row's keys are the requested columns in order of first
      request, and each holds the row's value under that name. */
  lemma {:induction false} SelectedSpec(row: Record, columns: seq<string>)
    ensures Keys(Selected(row, columns)) == Dedup(columns)
    ensures forall c :: c in columns ==> Get(Selected(row, columns), c) == Some(Lookup(row, c))
    ensures UniqueKeys(Selected(row, columns))
  {
    if columns != [] {
      var init := columns[..|columns| - 1];
      var col := columns[|columns| - 1];
      assert columns == init + [col];
      SelectedSpec(row, init);
      PutSpec(Selected(row, init), col, Lookup(row, col));
      DedupSnoc(init, col);
    }
  }

  /** JSON projection of one element: an object that copies, field after
      field, each requested field the element owns. */
  function Picked(item: Record, fields: seq<string>): Record {
    if fields == [] then []
    else
      var f := fields[|fields| - 1];
      var prev := Picked(item, fields[..|fields| - 1]);
      if Has(item, f) then Put(prev, f, Lookup(item, f)) else prev
  }

  /** The JSON projection has exactly the requested fields the element owns,
      in order of first request, with the element's values. */
  lemma {:induction false} PickedSpec(item: Record, fields: seq<string>)
    ensures Keys(Picked(item, fields)) == Dedup(Owned(item, fields))
    ensures forall k :: Has(Picked(item, fields), k) <==> Has(item, k) && k in fields
    ensures forall k :: Has(Picked(item, fields), k) ==> Get(Picked(item, fields), k) == Get(item, k)
    ensures UniqueKeys(Picked(item, fields))
  {
    if fields != [] {
      var init := fields[..|fields| - 1];
      var f := fields[|fields| - 1];
      assert fields == init + [f];
      PickedSpec(item, init);
      if Has(item, f) {
        PutSpec(Picked(item, init), f, Lookup(item, f));
        assert Owned(item, fields) == Owned(item, init) + [f];
        DedupSnoc(Owned(item, init), f);
      } else {
        assert Owned(item, fields) == Owned(item, init);
      }
    }
  }

  /** The per-element transformation of the JSON tools: the element itself
      when no fields are requested, its JSON projection otherwise. */
  function ProjectItem(item: Record, fields: seq<string>): Record {
    if |fields| == 0 then item else Picked(item, fields)
  }

  /** A projected element never has a key the element does not own, and
      every value is copied; with fields requested, it has exactly the
      requested keys the element owns. */
  lemma ProjectItemSpec(item: Record, fields: seq<string>)
    ensures |fields| == 0 ==> ProjectItem(item, fields) == item
    ensures forall k :: Has(ProjectItem(item, fields), k) ==>
      Has(item, k) && Get(ProjectItem(item, fields), k) == Get(item, k)
    ensures |fields| > 0 ==> forall k :: Has(ProjectItem(item, fields), k) <==> Has(item, k) && k in fields
  {
    if |fields| > 0 {
      PickedSpec(item, fields);
    }
  }

  /** The loop that fills `filtered` column by column. */
  method SelectColumns(row: Record, columns: seq<string>) returns (filtered: Record)
    ensures filtered == Selected(row, columns)
  {
    filtered := [];
    for i := 0 to |columns|
      invariant filtered == Selected(row, columns[..i])
    {
      var col := columns[i];
      assert columns[..i + 1][..i] == columns[..i];
      filtered := Put(filtered, col, Lookup(row, col));
    }
    assert columns[..|columns|] == columns;
  }

  /** The loop that copies each requested field the element owns. */
  method PickFields(item: Record, fields: seq<string>) returns (filtered: Record)
    ensures filtered == Picked(item, fields)
  {
    filtered := [];
    for i := 0 to |fields|
      invariant filtered == Picked(item, fields[..i])
    {
      var field := fields[i];
      assert fields[..i + 1][..i] == fields[..i];
      if Has(item, field) {
        filtered := Put(filtered, field, Lookup(item, field));
      }
    }
    assert fields[..|fields|] == fields;
  }

  /** Requesting the first `i` keys of an object yields its first `i`
      properties. */
  lemma {:induction false} PickedKeysPrefix(item: Record, i: nat)
    requires UniqueKeys(item) && i <= |item|
    ensures Picked(item, Keys(item)[..i]) == item[..i]
  {
    if i > 0 {
      PickedKeysPrefix(item, i - 1);
      var ks := Keys(item)[..i];
      assert ks[..i - 1] == Keys(item)[..i - 1];
      KeyStep(item, i);
      assert Picked(item, ks) == Put(Picked(item, ks[..i - 1]), ks[i - 1], Lookup(item, ks[i - 1]));
    }
  }

  /** Requesting the first `i` keys of a row as columns yields its first `i`
      cells. */
  lemma {:induction false} SelectedKeysPrefix(row: Record, i: nat)
    requires UniqueKeys(row) && i <= |row|
    ensures Selected(row, Keys(row)[..i]) == row[..i]
  {
    if i > 0 {
      SelectedKeysPrefix(row, i - 1);
      var ks := Keys(row)[..i];
      assert ks[..i - 1] == Keys(row)[..i - 1];
      KeyStep(row, i);
      assert Selected(row, ks) == Put(Selected(row, ks[..i - 1]), ks[i - 1], Lookup(row, ks[i - 1]));
    }
  }

  /** Assigning the `i`-th property of an object onto its first `i - 1`
      properties appends it. */
  lemma KeyStep(o: Record, i: nat)
    requires UniqueKeys(o) && 0 < i <= |o|
    ensures Keys(o)[..i][i - 1] == o[i - 1].0 && Has(o, o[i - 1].0)
    ensures Lookup(o, o[i - 1].0) == o[i - 1].1
    ensures Put(o[..i - 1], o[i - 1].0, o[i - 1].1) == o[..i]
  {
    assert Keys(o)[i - 1] == o[i - 1].0;
    GetAt(o, i - 1);
    assert Keys(o[..i - 1]) == Keys(o)[..i - 1];
    assert o[..i] == o[..i - 1] + [o[i - 1]];
  }

  /** Requesting exactly the fields an element owns, in its own order,
      leaves the element unchanged. */
  lemma PickedAllKeys(item: Record)
    requires UniqueKeys(item)
    ensures Picked(item, Keys(item)) == item
  {
    PickedKeysPrefix(item, |item|);
    assert Keys(item)[..|item|] == Keys(item);
    assert item[..|item|] == item;
  }

  /** Requesting exactly a row's columns, in its own order, leaves the row
      unchanged. */
  lemma SelectedAllKeys(row: Record)
    requires UniqueKeys(row)
    ensures Selected(row, Keys(row)) == row
  {
    SelectedKeysPrefix(row, |row|);
    assert Keys(row)[..|row|] == Keys(row);
    assert row[..|row|] == row;
  }
}

=== FILE: replies.dfy ===
/**
 What a tool hands back: one result envelope, or one failure in place of any
 partial result.
 */
module Replies {
  import opened Objects

  /** Why a request produced no result. The failure's text is not modelled
      beyond the parser's or stream's own message. */
  datatype Failure =
    | LimitExceeded
    | UnsupportedExtension
    | SourceNotFound
    | ReadFailure(message: string)

  datatype Reply<T> = Ok(value: T) | Fail(failure: Failure)

  /** The envelope of `get_chunk` (`totalRows`) and `get_json_chunk`
      (`totalEntries`). */
  datatype Chunk = Chunk(chunk: seq<Record>, start: nat, limit: nat, total: nat)
}

=== FILE: scan.dfy ===
/**
 The three single forward passes over the elements of a streamed JSON array.
 Each pass sees the elements in index order, counts every one, and keeps
 only what its tool returns: the first elements (`read_json`), the elements
 inside an index window (`get_json_chunk`) or the first matches of a query
 (`query_json`).
 */
module Scan {
  import opened Objects
  import opened Projection
  import opened Paging
  import opened Matcher

  /** Every element that satisfies the query, in scan order. */
  function Matching(records: seq<Record>, q: Query): (m: seq<Record>)
    ensures |m| <= |records|
    ensures forall r :: r in m <==> r in records && IsMatch(r, q)
  {
    if records == [] then []
    else
      var init := records[..|records| - 1];
      var last := records[|records| - 1];
      assert records == init + [last];
      var prev := Matching(init, q);
      if IsMatch(last, q) then prev + [last] else prev
  }

  /** A single element is kept exactly when it satisfies the query. */
  lemma MatchingSingle(r: Record, q: Query)
    ensures Matching([r], q) == if IsMatch(r, q) then [r] else []
  {
    assert [r][..0] == [];
  }

  /** Filtering a concatenation filters each part and keeps their order, so
      the matches are the matching elements in scan order, each as often as
      it occurs. */
  lemma {:induction false} MatchingAppend(a: seq<Record>, b: seq<Record>, q: Query)
    ensures Matching(a + b, q) == Matching(a, q) + Matching(b, q)
  {
    if b == [] {
      assert a + b == a;
    } else {
      var init := b[..|b| - 1];
      var last := b[|b| - 1];
      MatchingAppend(a, init, q);
      assert (a + b)[..|a + b| - 1] == a + init;
      assert (a + b)[|a + b| - 1] == last;
    }
  }

  /** The elements after field projection, in order. */
  function ProjectEach(items: seq<Record>, fields: seq<string>): (r: seq<Record>)
    ensures |r| == |items|
  {
    if items == [] then []
    else ProjectEach(items[..|items| - 1], fields) + [ProjectItem(items[|items| - 1], fields)]
  }

  /** Projecting one more element appends its projection. */
  lemma ProjectEachSnoc(items: seq<Record>, item: Record, fields: seq<string>)
    ensures ProjectEach(items + [item], fields) == ProjectEach(items, fields) + [ProjectItem(item, fields)]
  {
    assert (items + [item])[..|items|] == items;
  }

  /** Position `i` of the projected elements holds element `i`, projected. */
  lemma {:induction false} ProjectEachAt(items: seq<Record>, fields: seq<string>, i: nat)
    requires i < |items|
    ensures ProjectEach(items, fields)[i] == ProjectItem(items[i], fields)
  {
    var n := |items| - 1;
    if i < n {
      ProjectEachAt(items[..n], fields, i);
    }
  }

  /** The projection a pass applies to one element it keeps. */
  method ProjectValue(value: Record, fields: seq<string>) returns (item: Record)
    ensures item == ProjectItem(value, fields)
  {
    item := value;
    if |fields| > 0 {
      item := PickFields(value, fields);
    }
  }

  /** The preview pass of `read_json`: the first element's keys, the first
      elements projected, and the number of elements. */
  method PreviewPass(records: seq<Record>, fields: seq<string>)
    returns (preview: seq<Record>, totalEntries: nat, fieldNames: seq<string>)
    ensures totalEntries == |records|
    ensures preview == ProjectEach(Head(records, PREVIEW_LIMIT), fields)
    ensures fieldNames == if |records| == 0 then [] else Keys(records[0])
  {
    preview, totalEntries, fieldNames := [], 0, [];
    for i := 0 to |records|
      invariant totalEntries == i
      invariant preview == ProjectEach(Head(records[..i], PREVIEW_LIMIT), fields)
      invariant fieldNames == if i == 0 then [] else Keys(records[0])
    {
      var value := records[i];
      if totalEntries == 0 {
        fieldNames := Keys(value);
      }
      totalEntries := totalEntries + 1;
      assert records[..i + 1] == records[..i] + [value];
      HeadStep(records[..i], [value], PREVIEW_LIMIT);
      if |preview| < PREVIEW_LIMIT {
        var item := ProjectValue(value, fields);
        ProjectEachSnoc(Head(records[..i], PREVIEW_LIMIT), value, fields);
        preview := preview + [item];
      }
    }
    assert records[..|records|] == records;
  }

  /** The window pass of `get_json_chunk`: the projected elements whose index
      lies in `[start, start + limit)`, and the number of elements. */
  method WindowPass(records: seq<Record>, fields: seq<string>, start: nat, limit: nat)
    returns (chunk: seq<Record>, totalEntries: nat)
    ensures totalEntries == |records|
    ensures chunk == ProjectEach(Window(records, start, limit), fields)
  {
    chunk, totalEntries := [], 0;
    for key := 0 to |records|
      invariant totalEntries == key
      invariant chunk == ProjectEach(Window(records[..key], start, limit), fields)
    {
      var value := records[key];
      totalEntries := totalEntries + 1;
      if key >= start && key < start + limit {
        var item := ProjectValue(value, fields);
        WindowGrows(records, start, limit, key);
        ProjectEachSnoc(Window(records[..key], start, limit), value, fields);
        chunk := chunk + [item];
      } else {
        WindowStays(records, start, limit, key);
      }
    }
    assert records[..|records|] == records;
  }

  /** The predicate pass of `query_json`: the first matches, unprojected,
      and the number of elements. */
  method QueryPass(records: seq<Record>, q: Query) returns (results: seq<Record>, totalEntries: nat)
    ensures totalEntries == |records|
    ensures results == Head(Matching(records, q), MAX_RESULTS)
  {
    results, totalEntries := [], 0;
    for i := 0 to |records|
      invariant totalEntries == i
      invariant results == Head(Matching(records[..i], q), MAX_RESULTS)
    {
      var value := records[i];
      totalEntries := totalEntries + 1;
      var isMatch := IsMatch(value, q);
      MatchingStep(records, i, q);
      if isMatch && |results| < MAX_RESULTS {
        results := results + [value];
      }
      HeadStep(Matching(records[..i], q), if isMatch then [value] else [], MAX_RESULTS);
    }
    assert records[..|records|] == records;
  }

  /** Scanning one more element adds it to the matches exactly when it
      satisfies the query. */
  lemma MatchingStep(records: seq<Record>, i: nat, q: Query)
    requires i < |records|
    ensures Matching(records[..i + 1], q)
         == Matching(records[..i], q) + if IsMatch(records[i], q) then [records[i]] else []
  {
    assert records[..i + 1][..i] == records[..i];
  }

  /** Requesting exactly the fields every element owns, in the elements' own
      order, changes no element. */
  lemma UniformElementsUnchanged(items: seq<Record>, fields: seq<string>)
    requires forall i :: 0 <= i < |items| ==> UniqueKeys(items[i]) && Keys(items[i]) == fields
    ensures ProjectEach(items, fields) == items
  {
    forall i | 0 <= i < |items| ensures ProjectEach(items, fields)[i] == items[i] {
      ProjectEachAt(items, fields, i);
      if |fields| > 0 {
        PickedAllKeys(items[i]);
      } else {
        assert items[i] == [];
      }
    }
  }

  /** Elements `[{"s":"abc"},{"s":"xbc"},{"s":null}]` queried with
      `startsWith "a"` on `s` give exactly the first element. */
  lemma StartsWithExample()
    ensures var records: seq<Record> := [[("s", Str("abc"))], [("s", Str("xbc"))], [("s", Null)]];
            Head(Matching(records, Query("s", StartsWith, "a")), MAX_RESULTS) == [records[0]]
  {
    var records: seq<Record> := [[("s", Str("abc"))], [("s", Str("xbc"))], [("s", Null)]];
    var q := Query("s", StartsWith, "a");
    forall i | 0 <= i < 3 ensures Get(records[i], "s") == Some(records[i][0].1) {
      GetAt(records[i], 0);
    }
    assert "xbc"[..1] == "x";
    assert IsMatch(records[0], q) && !IsMatch(records[1], q) && !IsMatch(records[2], q);
    assert records[..0] == [];
    MatchingStep(records, 0, q);
    MatchingStep(records, 1, q);
    MatchingStep(records, 2, q);
    assert records[..3] == records;
  }
}

=== FILE: strings.dfy ===
/**
 The JavaScript string operations the access layer relies on: the suffix test
 used for file extensions and by the `endsWith` query operator, the prefix test
 of `startsWith`, the substring test of `includes`, and `Array.prototype.join`
 with its default separator.
 */
module Strings {

  /** `s.startsWith(t)`: `s` is `t` followed by something. */
  predicate StartsWith(s: string, t: string): (b: bool)
    ensures b <==> exists rest :: s == t + rest
  {
    if t <= s then
      assert s == t + s[|t|..];
      true
    else
      false
  }

  /** `s.endsWith(t)`: `s` is something followed by `t`. */
  predicate EndsWith(s: string, t: string): (b: bool)
    ensures b <==> exists rest :: s == rest + t
  {
    if |t| <= |s| && s[|s| - |t|..] == t then
      assert s == s[..|s| - |t|] + t;
      true
    else
      false
  }

  /** `t` occurs in `s` starting at position `i`. */
  ghost predicate OccursAt(s: string, t: string, i: int) {
    0 <= i && i + |t| <= |s| && s[i..i + |t|] == t
  }

  /** `s.includes(t)`: searches `s` from the left for an occurrence of `t`. */
  function Includes(s: string, t: string): (b: bool)
    ensures b <==> exists i :: OccursAt(s, t, i)
  {
    if StartsWith(s, t) then
      assert OccursAt(s, t, 0);
      true
    else if |s| == 0 then
      false
    else
      var b := Includes(s[1..], t);
      if b then
        assert exists i :: OccursAt(s, t, i) by {
          var i :| OccursAt(s[1..], t, i);
          assert s[1..][i..i + |t|] == s[i + 1..i + 1 + |t|];
          assert OccursAt(s, t, i + 1);
        }
        b
      else
        assert forall i :: !OccursAt(s, t, i) by {
          forall i | OccursAt(s, t, i) && i > 0 ensures OccursAt(s[1..], t, i - 1) {
            assert s[1..][i - 1..i - 1 + |t|] == s[i..i + |t|];
          }
        }
        b
  }

  /** `parts.join()`: the parts separated by commas, `""` for no parts. */
  function Join(parts: seq<string>): string {
    if |parts| == 0 then ""
    else if |parts| == 1 then parts[0]
    else Join(parts[..|parts| - 1]) + "," + parts[|parts| - 1]
  }
}

=== FILE: tabular.dfy ===
/**
 The tabular tools, `read_excel` and `get_chunk`, over a workbook or a
 delimited-text file that has already been parsed into rows.
 */
module Tabular {
  import opened Objects
  import opened Projection
  import opened Paging
  import opened Replies
  import Strings

  /** A sheet's name and its rows. */
  type Sheet = (string, seq<Record>)

  /** The parsed workbook: its sheets in workbook order, no name twice. */
  type Workbook = sheets: seq<Sheet> | UniqueKeys(sheets) witness []

  datatype Parse<+T> = Parsed(value: T) | Malformed(message: string)

  /** What the file system and the two parsers make of the requested path:
      whether the file could be read, what the workbook parser produces from
      its bytes and what the delimited-text parser (header row as column
      names, blank lines skipped) produces from them. */
  datatype TabularFile = TabularFile(found: bool, workbook: Parse<Workbook>, csvRows: Parse<seq<Record>>)

  /** What one sheet contributes to `read_excel`'s reply. */
  datatype SheetResult =
    | Whole(rows: seq<Record>)
    | TooLarge(preview: seq<Record>, totalRows: nat, columns: seq<string>)

  predicate Supported(filePath: string) {
    Strings.EndsWith(filePath, ".xlsx") || Strings.EndsWith(filePath, ".csv")
  }

  /** Which paths the tabular tools accept: exactly those ending in
      `.xlsx` or `.csv`, letter case included. */
  lemma SupportedExamples()
    ensures Supported("data.xlsx") && Supported("data.csv") && Supported(".csv")
    ensures !Supported("data.json") && !Supported("data.xls") && !Supported("DATA.CSV") && !Supported("csv")
  {
    assert "data.xlsx"[4..] == ".xlsx";
    assert "data.csv"[4..] == ".csv";
    assert "data.json"[4..] != ".xlsx" && "data.json"[5..] != ".csv";
    assert "data.xls"[3..] != ".xlsx" && "data.xls"[4..] != ".csv";
    assert "DATA.CSV"[3..] != ".xlsx" && "DATA.CSV"[4..] != ".csv";
  }

  /** The sheets the request reads: the workbook's for `.xlsx`, a single
      sheet named "CSV" for `.csv`. */
  function Sheets(filePath: string, file: TabularFile): (r: Parse<Workbook>)
    ensures Strings.EndsWith(filePath, ".xlsx") ==> r == file.workbook
    ensures !Strings.EndsWith(filePath, ".xlsx") ==>
      (r.Parsed? <==> file.csvRows.Parsed?) &&
      (r.Malformed? ==> r.message == file.csvRows.message) &&
      (r.Parsed? ==> |r.value| == 1 && r.value[0].0 == "CSV" && FirstSheet(r.value) == file.csvRows.value)
  {
    if Strings.EndsWith(filePath, ".xlsx") then file.workbook
    else
      match file.csvRows
      case Parsed(rows) =>
        var single: Workbook := [("CSV", rows)];
        Parsed(single)
      case Malformed(message) => Malformed(message)
  }

  /** `workbook.SheetNames[0]`'s rows; none for a workbook without sheets. */
  function FirstSheet(sheets: Workbook): (rows: seq<Record>)
    ensures |sheets| > 0 ==> (sheets[0].0, rows) in sheets
    ensures |sheets| == 0 ==> rows == []
  {
    if |sheets| == 0 then [] else sheets[0].1
  }

  /** The rows after column projection; untouched when no columns are
      requested. */
  function ProjectAll(data: seq<Record>, columns: seq<string>): seq<Record> {
    if |columns| == 0 then data else SelectAll(data, columns)
  }

  /** `data.map(...)` with the column projection: every row projected, in
      order. */
  function SelectAll(data: seq<Record>, columns: seq<string>): (r: seq<Record>)
    ensures |r| == |data|
  {
    if data == [] then []
    else SelectAll(data[..|data| - 1], columns) + [Selected(data[|data| - 1], columns)]
  }

  /** Row `i` of the projected rows is row `i`, projected. */
  lemma {:induction false} SelectAllAt(data: seq<Record>, columns: seq<string>, i: nat)
    requires i < |data|
    ensures SelectAll(data, columns)[i] == Selected(data[i], columns)
  {
    var n := |data| - 1;
    if i < n {
      SelectAllAt(data[..n], columns, i);
    }
  }

  /** The size decision for one sheet: all its rows up to the threshold,
      otherwise the first rows, the row count and the first row's keys. */
  function Threshold(data: seq<Record>): (r: SheetResult)
    ensures r.Whole? <==> |data| <= CHUNK_SIZE
    ensures r.Whole? ==> r.rows == data
    ensures r.TooLarge? ==> |r.preview| == PREVIEW_LIMIT && r.preview <= data
    ensures r.TooLarge? ==> r.totalRows == |data| && r.columns == Keys(data[0])
  {
    if |data| > CHUNK_SIZE then TooLarge(Head(data, PREVIEW_LIMIT), |data|, Keys(data[0]))
    else Whole(data)
  }

  /** A sheet's entry in `read_excel`'s result. */
  function Summary(sheet: Sheet, columns: seq<string>): (string, SheetResult) {
    (sheet.0, Threshold(ProjectAll(sheet.1, columns)))
  }

  /** `data.map(row => ...)` with the column-filling loop for each row. */
  method SelectRows(data: seq<Record>, columns: seq<string>) returns (rows: seq<Record>)
    ensures rows == SelectAll(data, columns)
  {
    rows := [];
    for i := 0 to |data|
      invariant rows == SelectAll(data[..i], columns)
    {
      var filtered := SelectColumns(data[i], columns);
      assert data[..i + 1][..i] == data[..i];
      rows := rows + [filtered];
    }
    assert data[..|data|] == data;
  }

  /** Projection followed by the size decision for one sheet's rows. */
  method SummarizeSheet(data: seq<Record>, columns: seq<string>) returns (entry: SheetResult)
    ensures entry == Threshold(ProjectAll(data, columns))
  {
    var rows := data;
    if |columns| > 0 {
      rows := SelectRows(data, columns);
    }
    entry := Threshold(rows);
  }

  /** Projection followed by the size decision, one sheet at a time, each
      assigned to the result object under the sheet's name. */
  method ReadSheets(sheets: Workbook, columns: seq<string>) returns (result: Entries<SheetResult>)
    ensures |result| == |sheets|
    ensures forall i :: 0 <= i < |sheets| ==> result[i] == Summary(sheets[i], columns)
  {
    ghost var all := seq(|sheets|, i requires 0 <= i < |sheets| => Summary(sheets[i], columns));
    result := [];
    for i := 0 to |sheets|
      invariant result == Assigned(all[..i])
    {
      var sheetName := sheets[i].0;
      var entry := SummarizeSheet(sheets[i].1, columns);
      assert all[i] == (sheetName, entry);
      AssignedStep(all, i);
      result := Put(result, sheetName, entry);
    }
    assert all[..|sheets|] == all;
    SameNames(all, sheets);
    AssignedUnique(all);
  }

  /** The `read_excel` tool (and its copy `readExcelFile`). */
  method ReadExcel(filePath: string, columns: seq<string>, file: TabularFile)
    returns (reply: Reply<Entries<SheetResult>>)
    ensures !Supported(filePath) ==> reply == Fail(UnsupportedExtension)
    ensures Supported(filePath) && !file.found ==> reply == Fail(SourceNotFound)
    ensures reply.Ok? <==> Supported(filePath) && file.found && Sheets(filePath, file).Parsed?
    ensures reply.Ok? ==>
      var sheets := Sheets(filePath, file).value;
      |reply.value| == |sheets| &&
      forall i :: 0 <= i < |sheets| ==>
        reply.value[i] == Summary(sheets[i], columns)
  {
    if !Supported(filePath) {
      return Fail(UnsupportedExtension);
    }
    if !file.found {
      return Fail(SourceNotFound);
    }
    match Sheets(filePath, file)
    case Malformed(message) =>
      reply := Fail(ReadFailure(message));
    case Parsed(sheets) =>
      var result := ReadSheets(sheets, columns);
      reply := Ok(result);
  }

  /** The `get_chunk` tool: the limit is checked before anything else, then
      the first sheet is projected whole and sliced. */
  method GetChunk(filePath: string, columns: seq<string>, start: nat, limit: nat, file: TabularFile)
    returns (reply: Reply<Chunk>)
    ensures limit > MAX_LIMIT ==> reply == Fail(LimitExceeded)
    ensures limit <= MAX_LIMIT ==> reply != Fail(LimitExceeded)
    ensures limit <= MAX_LIMIT && !Supported(filePath) ==> reply == Fail(UnsupportedExtension)
    ensures reply.Ok? <==>
      limit <= MAX_LIMIT && Supported(filePath) && file.found && Sheets(filePath, file).Parsed?
    ensures reply.Ok? ==>
      var data := ProjectAll(FirstSheet(Sheets(filePath, file).value), columns);
      reply.value == Chunk(Window(data, start, limit), start, limit, |data|)
  {
    if limit > MAX_LIMIT {
      return Fail(LimitExceeded);
    }
    if !Supported(filePath) {
      return Fail(UnsupportedExtension);
    }
    if !file.found {
      return Fail(SourceNotFound);
    }
    match Sheets(filePath, file)
    case Malformed(message) =>
      reply := Fail(ReadFailure(message));
    case Parsed(sheets) =>
      var data := FirstSheet(sheets);
      if |columns| > 0 {
        data := SelectRows(data, columns);
      }
      assert data == ProjectAll(FirstSheet(sheets), columns);
      var chunk := Window(data, start, limit);
      reply := Ok(Chunk(chunk, start, limit, |data|));
  }

  /** A sheet over the threshold, projected onto some columns, reports
      exactly the requested columns, in order of first request. */
  lemma ProjectedPreviewColumns(data: seq<Record>, columns: seq<string>)
    requires |columns| > 0
    ensures Threshold(ProjectAll(data, columns)).TooLarge? ==>
      Threshold(ProjectAll(data, columns)).columns == Dedup(columns)
  {
    if |data| > CHUNK_SIZE {
      SelectAllAt(data, columns, 0);
      SelectedSpec(data[0], columns);
    }
  }

  /** Projecting a sheet onto exactly the columns every row has, in the
      rows' own order, changes nothing. */
  lemma UniformSheetUnchanged(data: seq<Record>, columns: seq<string>)
    requires forall i :: 0 <= i < |data| ==> UniqueKeys(data[i]) && Keys(data[i]) == columns
    ensures ProjectAll(data, columns) == data
  {
    if |columns| > 0 {
      forall i | 0 <= i < |data| ensures SelectAll(data, columns)[i] == data[i] {
        SelectAllAt(data, columns, i);
        SelectedAllKeys(data[i]);
      }
    }
  }
}
